=== FILE: README.md ===
# XBRecs recommender core in Dafny

XBRecs recommends books with a user-to-user neighbourhood method and explains the result with keywords. This project models the two pure parts of that pipeline. The database queries become filters over in-memory sequences of records.

- **Neighbour-based ranker** (`recommend.py`):
  - `k_nearest` pairs every other user with a similarity to the target, sorts the pairs highest first and keeps the first `k`.
  - `top_k_books` keeps the neighbours' ratings at or above the like threshold `LIKES` and drops every book the target has rated. It sums `rating × similarity` per book, sorts by that score and keeps the first `k`.
  - `recommend_books` composes the two, with 35 neighbours and 5 books by default.
- **Explanation builder** (`xai.py`):
  - `_xai_explanation_dict` intersects the keywords of the recommended books with the keywords of the books the user liked.
  - For each shared keyword it records the recommended books that carry it and the number of liked-book rows that carry it.
  - `pyvis_graph` turns that map into a list of `(keyword, book)` edges.

Modules:

- `Domain` (`domain.dfy`): identifiers, the rating record, and the rated and liked book sets.
- `Seqs` (`seqs.dfy`): order-preserving filters (list comprehensions and query filters) and Python's `s[:k]`, including negative `k`.
- `Ranking` (`ranking.dfy`), shared by both rankers:
  - a descending sort on `(key, score)` pairs, giving a sorted permutation;
  - the take-`k` step;
  - the insertion-ordered dictionary accumulation `d[key] += x`.
- `Recommend` (`recommend.dfy`): `k_nearest`, `top_k_books` and `recommend_books`.
- `Xai` (`xai.dfy`):
  - the book–keyword many-to-many relation, as rows of its join table;
  - the explanation map;
  - the edge list.

Modelling choices:

- Cosine similarity over the stored embeddings is a parameter `sim: (UserId, UserId) -> real`. Scores are `real`.
- `LIKES` is imported from `models.py`, which does not define it, so it is a `likes: real` parameter.
- The user table holds each user once. This is the one assumption `KNearest` makes about its input (`Distinct(users)`).
- `nearest_users.index(u)` finds the first pair that lists `u` (`FirstSim`). `NeighbourSimilarity` shows that, on the duplicate-free list `KNearest` builds, this is that neighbour's own similarity.
- The dictionary of `top_k_books` is a sequence of `(book, score)` entries in first-insertion order.
  - `GroupSum` builds it with the same "insert 0.0 if missing, then add" step as the loop.
  - It is proved against an independent reference sum, `SumFor`.

A user without ratings still gets books that a consulted neighbour liked, scored with whatever similarity their empty profile receives. `Recommend.ColdStartStillRecommends` states this for the case where every user is consulted and at least one book is asked for.

Some members are plain definitions that the rankers' contracts are stated in terms of, and they carry no promise of their own:

- `Domain.RatedBy` is the set of books a user rated at any value.
- `Seqs.SliceTo` is Python's `s[:k]`.
- `Recommend.CandidateBooks` is the set of unread books some listed neighbour rated at or above the threshold.
- `Xai.KeywordEdges` is the edge list for one keyword.

That rated books are excluded and that exactly the candidates can be ranked is stated by `Recommend.TopKBooks`. The slice length and the prefix are stated by `Ranking.TopK`, and the edges by `Xai.GraphEdges`.

## Model

| member | source | states |
|---|---|---|
| Domain.LikedBooks | xrecommender/application/xai.py:45-47 | A user's liked books are the books they rated at or above the threshold; they are a subset of the rated books. |
| Seqs.FilterIsSubsequence | xrecommender/application/xai.py:60 | A list comprehension with a condition keeps the surviving elements in their original order. |
| Seqs.FilterMultiplicity | xrecommender/application/xai.py:60 | A list comprehension with a condition keeps every copy of an element that passes and none of one that fails. |
| Seqs.FilterCountsDistinct | xrecommender/application/xai.py:61 | Counting filtered rows of a table without duplicate rows counts distinct matching rows. |
| Ranking.SortDesc | xrecommender/application/recommend.py:34 | Sorting by score with `reverse=True` yields a permutation of its input whose scores never increase. |
| Ranking.TopK | xrecommender/application/recommend.py:81-83 | Sort-then-slice has the slice's length and draws its entries from the input. Its scores never increase, and distinct keys stay distinct. Every input entry left out scores no higher than any entry kept, counting copies: an entry kept fewer times than it occurs in the input also scores no higher than any entry kept. |
| Ranking.Accumulate | xrecommender/application/recommend.py:74-78 | One `d[key] += x` step adds `x` to that key's value and to no other key. It creates the key when missing and keeps keys unique. |
| Ranking.GroupSum | xrecommender/application/recommend.py:72-78 | The accumulated dictionary has one entry per key of its input, and each value is the total of that key's contributions. |
| Ranking.GroupSumEntries | xrecommender/application/recommend.py:72-78 | Every entry of the accumulated dictionary carries the total of its key. |
| Recommend.ExcludeOne | xrecommender/application/recommend.py:26 | Excluding the target from a user table without duplicates removes one user if the target is present, none otherwise. |
| Recommend.KNearest | xrecommender/application/recommend.py:10-35 | Every neighbour is another user, listed once with its similarity to the target, most similar first. There are exactly `min(k, other users)` neighbours, with Python slicing for negative `k`. With `k` at least the table size every other user is listed. Every user left out is no more similar than any listed one. |
| Recommend.FirstSim | xrecommender/application/recommend.py:78 | `nearest_sims[nearest_users.index(u)]` is the similarity of the first pair that names `u`. |
| Recommend.NeighbourSimilarity | xrecommender/application/recommend.py:56-57 | On a neighbour list without duplicate users, the index lookup returns that neighbour's own similarity. |
| Recommend.Contributions | xrecommender/application/recommend.py:73-78 | Each scored rating adds `rating × similarity` to its own book, with the similarity of the first neighbour pair that names its rater. |
| Recommend.Scored | xrecommender/application/recommend.py:59-68 | The scored ratings are exactly the neighbours' ratings at or above the threshold of books the target has not rated. |
| Recommend.ScoreOfUnreadBook | xrecommender/application/recommend.py:70-78 | For an unread book, the accumulated contributions equal the reference score: the sum of `rating × similarity` over qualifying neighbour ratings of that book. |
| Recommend.TopKBooks | xrecommender/application/recommend.py:38-83 | The result, best first, lists only unread candidate books, each once and with its reference score. Their number is Python's `[:k]` of the candidates: `k`, or every candidate when there are fewer, and for a negative `k` all but the last `-k`. When fewer than `k` come back, every candidate is listed. A candidate left out scores no higher than any listed book. No candidates gives an empty list. |
| Recommend.RecommendBooks | xrecommender/application/recommend.py:86-104 | Every recommended book is unread and liked by some other user. It carries its score over the `n` nearest neighbours. They come best first, each once, and their number is Python's `[:k]` of the candidate books of those neighbours. |
| Recommend.RecommendDefaults | xrecommender/application/recommend.py:86-87 | Called without counts, the recommender consults 35 neighbours and returns at most 5 books. |
| Recommend.IrrelevantRatingIgnored | xrecommender/application/recommend.py:59-62 | A rating by a user other than the target that is below the threshold, or whose author is not a listed neighbour, cannot change the ranking. |
| Recommend.ColdStartStillRecommends | xrecommender/application/recommend.py:59-83 | A user with no ratings still receives at least one book when another user likes one and every user is consulted. |
| Recommend.SingleCandidate | xrecommender/application/recommend.py:80-83 | When exactly one book qualifies, the ranking is that book with its reference score. |
| Recommend.SharedFavourite | xrecommender/application/recommend.py:86-104 | Two fully similar users who both rate an unread book 1.0 make it the sole recommendation, with score 2.0. |
| Xai.ExplanationDict | xrecommender/application/xai.py:23-63 | The keys are exactly the keywords carried both by a recommended book and by a liked book. Each key lists exactly the recommended books carrying it, in recommendation order and as many times as they occur among the recommendations, so never none. Its liked-row count is at least one. |
| Xai.RecommendedKeywords | xrecommender/application/xai.py:42 | The keywords reached through the recommended books' join rows are those some recommended book carries. |
| Xai.LikedKeywords | xrecommender/application/xai.py:44-49 | The keywords reached through the liked books' join rows are those some liked book carries. |
| Xai.KeywordSupport | xrecommender/application/xai.py:58-62 | For a shared keyword, the book list is the recommended books carrying it, in order, each as often as it is recommended, and non-empty; the liked-row count is positive. |
| Xai.LikedCountCountsLikedBooks | xrecommender/application/xai.py:55-61 | A keyword carried by a recommended book and by a liked book is explained; with each book–keyword pair stored once, its count is the number of distinct liked books carrying it. |
| Xai.ExplanationDependsOnLikedBooks | xrecommender/application/xai.py:44-49 | The explanation reads the ratings only through the user's set of liked books. |
| Xai.OtherRatingsDoNotMatter | xrecommender/application/xai.py:45-47 | A rating below the threshold, or by another user, leaves the explanation unchanged. |
| Xai.NothingToExplain | xrecommender/application/xai.py:42-53 | No recommended books, or no liked books, gives an empty map. |
| Xai.GraphEdges | xrecommender/application/xai.py:111-117 | The edge list holds exactly the pairs of a walked keyword and a book in its list. |
| Xai.EdgesAreSharedKeywordLinks | xrecommender/application/xai.py:102-117 | Walking every key of the explanation, an edge joins a keyword to a book exactly when the book is recommended and carries the keyword, and some liked book carries it too. |

## Left out

- Cosine similarity and the embedding plumbing (`recommend.py:24-31`) are floating-point library numerics. Similarity is an abstract total function, and scores are exact reals without rounding.
- The database is not modelled.
  - Query results are sequences in a given order.
  - Users are a sequence of identifiers, ratings a sequence of `Rating` records, and `Book.keywords` the rows of its join table.
  - The order the database returns rows in is an input.
- Recommend.KNearest: returns an empty list when the target is the only user. The source raises instead: with no other user, `np.array([])` (`recommend.py:27`) is one-dimensional and the cosine similarity call (`recommend.py:29`) rejects it. The model also takes the target's embedding for granted. `recommend.py:24` reads it from the `User` record, but in `models.py` the embedding lives on `UserProfile`, and `User` has no `get_embedding`.
- Ranking.TopK: claims no order among entries with equal scores. Python's sort is stable, but the input order of ties is whatever the database returns, so no particular tie order is promised.
- Xai.GraphEdges: takes the dictionary's iteration order as a parameter. That order is the order the database returns the keyword intersection in.
- The pyvis network is not modelled: nodes, labels, cover images, node sizing from `get_adj_list`, the random node colour and HTML generation (`xai.py:66-142`). These are rendering and randomness. Only the edge list is modelled.
- Edges in the source are keyed by the keyword's text (`kw.word`), not by its identity. Two keywords with the same text would share a graph node. The model keys edges by keyword identity.
- The incremental maintenance of a user's taste vector on rating changes is not modelled. The `User` model in `models.py` has no `sum_ratings` field and no save hooks, and the bulk loader only writes a plain sum.
- Some modules are not part of this model: the Django models, views, forms, URLs, admin and search index; the bulk loader and the scratch script; the JavaScript front end.
- `sort_rec_books_by_keyword_count` and `xai_explanation_dict`, imported by the views, are not part of this model. They do not exist in `xai.py`.
- Persistence, sessions and concurrency are not modelled.

=== FILE: domain.dfy ===
/** Entities of the recommender, reduced to what the ranking and explanation
    code reads: opaque identifiers and the rating record. */
module Domain {

  /** A user, a book and a keyword are known to the core only by identity. */
  datatype UserId = UserId(id: nat)
  datatype BookId = BookId(id: nat)
  datatype KeywordId = KeywordId(id: nat)

  /** One row of the rating table: `user` rated `book` with `value`
      (observed values 0.0, 0.25, 0.5, 0.75 and 1.0; the table does not enforce them). */
  datatype Rating = Rating(user: UserId, book: BookId, value: real)

  /** The books `user` has rated, at any value. */
  function RatedBy(ratings: seq<Rating>, user: UserId): (read: set<BookId>)
    ensures forall b :: b in read <==> exists r :: r in ratings && r.user == user && r.book == b
  {
    set r | r in ratings && r.user == user :: r.book
  }

  /** The books `user` likes: those rated at or above the `likes` threshold. */
  function LikedBooks(ratings: seq<Rating>, user: UserId, likes: real): (liked: set<BookId>)
    ensures liked <= RatedBy(ratings, user)
    ensures forall b :: b in liked <==> exists r :: r in ratings && r.user == user && r.value >= likes && r.book == b
  {
    set r | r in ratings && r.user == user && r.value >= likes :: r.book
  }
}

=== FILE: ranking.dfy ===
/** Generic machinery over scored sequences `seq<(K, real)>`, the shape of both
    the neighbour list (user, similarity) and the recommendation list (book, score):
    sort by score highest first, keep a prefix, and sum scores per key in a
    dictionary that remembers insertion order. */
module Ranking {
  import opened Seqs

  /** The keys that occur in a scored sequence. */
  function Keys<K(==)>(s: seq<(K, real)>): set<K> {
    set i | 0 <= i < |s| :: s[i].0
  }

  /** No key occurs twice. */
  predicate KeysDistinct<K(==)>(s: seq<(K, real)>) {
    forall i, j :: 0 <= i < j < |s| ==> s[i].0 != s[j].0
  }

  /** Scores are non-increasing along the sequence. */
  predicate Descending<K>(s: seq<(K, real)>) {
    forall i, j :: 0 <= i < j < |s| ==> s[i].1 >= s[j].1
  }

  /** No entry of `s` scores below `v`. */
  predicate AllAtLeast<K>(s: seq<(K, real)>, v: real) {
    forall j :: 0 <= j < |s| ==> v <= s[j].1
  }

  /** The keys of an entry followed by a sequence. */
  lemma KeysCons<K>(h: (K, real), t: seq<(K, real)>)
    ensures Keys([h] + t) == {h.0} + Keys(t)
  {
    var s := [h] + t;
    forall k | k in Keys(s) ensures k in {h.0} + Keys(t) {
      var i :| 0 <= i < |s| && s[i].0 == k;
      if i > 0 {
        assert s[i] == t[i - 1];
      }
    }
    forall k | k in {h.0} + Keys(t) ensures k in Keys(s) {
      if k == h.0 {
        assert s[0].0 == k;
      } else {
        var i :| 0 <= i < |t| && t[i].0 == k;
        assert s[i + 1] == t[i];
      }
    }
  }

  /** An entry followed by a sequence is key-distinct exactly when the entry's key is new
      and the sequence is key-distinct. */
  lemma KeysDistinctCons<K>(h: (K, real), t: seq<(K, real)>)
    ensures KeysDistinct([h] + t) <==> h.0 !in Keys(t) && KeysDistinct(t)
  {
    var s := [h] + t;
    assert forall i :: 0 <= i < |t| ==> s[i + 1] == t[i];
    if KeysDistinct(s) {
      forall i | 0 <= i < |t| ensures t[i].0 != h.0 {
        assert s[0] == h && s[i + 1] == t[i];
      }
    }
  }

  /** A key-distinct sequence has exactly one entry per key. */
  lemma {:induction false} KeysDistinctCount<K>(s: seq<(K, real)>)
    requires KeysDistinct(s)
    ensures |Keys(s)| == |s|
    decreases |s|
  {
    if |s| > 0 {
      assert s == [s[0]] + s[1..];
      KeysCons(s[0], s[1..]);
      KeysDistinctCons(s[0], s[1..]);
      KeysDistinctCount(s[1..]);
    }
  }

  /** Inserts `x` into a descending sequence in front of the first entry it is not below. */
  function Insert<K(==)>(x: (K, real), s: seq<(K, real)>): (r: seq<(K, real)>)
    requires Descending(s)
    ensures |r| == |s| + 1
    ensures r[0] == x || (|s| > 0 && r[0] == s[0])
    ensures Descending(r)
    ensures multiset(r) == multiset(s) + multiset{x}
  {
    if |s| == 0 || x.1 >= s[0].1 then [x] + s
    else
      var rest := Insert(x, s[1..]);
      assert s == [s[0]] + s[1..];
      assert s[0].1 >= rest[0].1;
      [s[0]] + rest
  }

  /** Sorts by score, highest first (Python's `list.sort(key=score, reverse=True)`).
      Entries with equal scores keep their relative order, but nothing below relies on that. */
  function SortDesc<K(==)>(s: seq<(K, real)>): (r: seq<(K, real)>)
    ensures |r| == |s|
    ensures Descending(r)
    ensures multiset(r) == multiset(s)
  {
    if |s| == 0 then []
    else
      assert s == [s[0]] + s[1..];
      Insert(s[0], SortDesc(s[1..]))
  }

  /** Inserting a new key into a key-distinct sequence keeps it key-distinct. */
  lemma {:induction false} InsertKeepsKeysDistinct<K>(x: (K, real), s: seq<(K, real)>)
    requires Descending(s) && KeysDistinct(s)
    requires x.0 !in Keys(s)
    ensures KeysDistinct(Insert(x, s))
    ensures Keys(Insert(x, s)) == Keys(s) + {x.0}
    decreases |s|
  {
    if |s| == 0 || x.1 >= s[0].1 {
      KeysCons(x, s);
      KeysDistinctCons(x, s);
    } else {
      var tail := s[1..];
      assert s == [s[0]] + tail;
      KeysCons(s[0], tail);
      KeysDistinctCons(s[0], tail);
      InsertKeepsKeysDistinct(x, tail);
      var rest := Insert(x, tail);
      KeysCons(s[0], rest);
      KeysDistinctCons(s[0], rest);
    }
  }

  /** Sorting a key-distinct sequence neither adds nor duplicates keys. */
  lemma {:induction false} SortKeepsKeysDistinct<K>(s: seq<(K, real)>)
    ensures KeysDistinct(s) ==> KeysDistinct(SortDesc(s)) && Keys(SortDesc(s)) == Keys(s)
    decreases |s|
  {
    if |s| > 0 && KeysDistinct(s) {
      var tail := s[1..];
      assert s == [s[0]] + tail;
      KeysCons(s[0], tail);
      KeysDistinctCons(s[0], tail);
      SortKeepsKeysDistinct(tail);
      InsertKeepsKeysDistinct(s[0], SortDesc(tail));
    }
  }

  /** The `k` best-scored entries: sort highest first, then Python's `[:k]`. */
  function TopK<K(==)>(s: seq<(K, real)>, k: int): (r: seq<(K, real)>)
    ensures |r| == if k >= 0 then Min(k, |s|) else Max(0, |s| + k)
    ensures multiset(r) <= multiset(s)
    ensures |r| == |s| ==> multiset(r) == multiset(s)
    ensures Descending(r)
    ensures KeysDistinct(s) ==> KeysDistinct(r)
    ensures forall i :: 0 <= i < |s| && s[i] !in r ==> AllAtLeast(r, s[i].1)
    ensures forall i :: 0 <= i < |s| && multiset(r)[s[i]] < multiset(s)[s[i]] ==> AllAtLeast(r, s[i].1)
  {
    var sorted := SortDesc(s);
    var r := SliceTo(sorted, k);
    SortKeepsKeysDistinct(s);
    TopKFacts(s, sorted, k, r);
    r
  }

  /** The proof obligations of `TopK`, discharged over a sorted permutation of its input. */
  lemma TopKFacts<K>(s: seq<(K, real)>, sorted: seq<(K, real)>, k: int, r: seq<(K, real)>)
    requires Descending(sorted) && multiset(sorted) == multiset(s) && |sorted| == |s|
    requires KeysDistinct(s) ==> KeysDistinct(sorted)
    requires r == SliceTo(sorted, k)
    ensures multiset(r) <= multiset(s)
    ensures |r| == |s| ==> multiset(r) == multiset(s)
    ensures Descending(r)
    ensures KeysDistinct(s) ==> KeysDistinct(r)
    ensures forall i :: 0 <= i < |s| && s[i] !in r ==> AllAtLeast(r, s[i].1)
    ensures forall i :: 0 <= i < |s| && multiset(r)[s[i]] < multiset(s)[s[i]] ==> AllAtLeast(r, s[i].1)
  {
    assert sorted == r + sorted[|r|..];
    assert forall j :: 0 <= j < |r| ==> r[j] == sorted[j];
    PrefixOfSortedDominates(s, sorted, |r|);
    PrefixOfSortedDominatesCopies(s, sorted, |r|);
  }

  /** Every entry left out of a prefix of a sorted permutation scores no higher than the kept ones. */
  lemma PrefixOfSortedDominates<K>(s: seq<(K, real)>, sorted: seq<(K, real)>, n: nat)
    requires Descending(sorted) && multiset(sorted) == multiset(s)
    requires n <= |sorted|
    ensures forall i :: 0 <= i < |s| && s[i] !in sorted[..n] ==> AllAtLeast(sorted[..n], s[i].1)
  {
    forall i | 0 <= i < |s| && s[i] !in sorted[..n] ensures AllAtLeast(sorted[..n], s[i].1) {
      assert s[i] in multiset(sorted);
      var m :| 0 <= m < |sorted| && sorted[m] == s[i];
      assert forall j :: 0 <= j < n ==> sorted[..n][j] == sorted[j] && sorted[j] in sorted[..n];
    }
  }

  /** A copy of an entry left out of a prefix of a sorted permutation scores no higher than the kept ones. */
  lemma PrefixOfSortedDominatesCopies<K>(s: seq<(K, real)>, sorted: seq<(K, real)>, n: nat)
    requires Descending(sorted) && multiset(sorted) == multiset(s)
    requires n <= |sorted|
    ensures forall i :: 0 <= i < |s| && multiset(sorted[..n])[s[i]] < multiset(s)[s[i]] ==>
              AllAtLeast(sorted[..n], s[i].1)
  {
    forall i | 0 <= i < |s| && multiset(sorted[..n])[s[i]] < multiset(s)[s[i]]
      ensures AllAtLeast(sorted[..n], s[i].1)
    {
      assert sorted == sorted[..n] + sorted[n..];
      assert multiset(sorted) == multiset(sorted[..n]) + multiset(sorted[n..]);
      assert s[i] in multiset(sorted[n..]);
      var m :| 0 <= m < |sorted| - n && sorted[n..][m] == s[i];
      assert sorted[n + m] == s[i];
      assert forall j :: 0 <= j < n ==> sorted[..n][j] == sorted[j];
    }
  }

  /** A permutation keeps every key. */
  lemma PermutationKeepsKeys<K>(pairs: seq<(K, real)>, r: seq<(K, real)>)
    requires multiset(r) == multiset(pairs)
    ensures Keys(r) == Keys(pairs)
  {
    forall j | 0 <= j < |pairs| ensures pairs[j].0 in Keys(r) {
      assert pairs[j] in multiset(r);
      var i :| 0 <= i < |r| && r[i] == pairs[j];
    }
    forall i | 0 <= i < |r| ensures r[i].0 in Keys(pairs) {
      assert r[i] in multiset(pairs);
      var j :| 0 <= j < |pairs| && pairs[j] == r[i];
    }
  }

  /** The score stored under `key` (its first entry), or 0.0 when absent. */
  function Lookup<K(==)>(s: seq<(K, real)>, key: K): real {
    if |s| == 0 then 0.0
    else if s[0].0 == key then s[0].1
    else Lookup(s[1..], key)
  }

  /** In a key-distinct sequence, `Lookup` finds each entry's own score. */
  lemma {:induction false} LookupFindsEntry<K>(s: seq<(K, real)>, i: nat)
    requires KeysDistinct(s)
    requires i < |s|
    ensures Lookup(s, s[i].0) == s[i].1
    decreases i
  {
    if i > 0 {
      assert s[0].0 != s[i].0;
      assert s[1..][i - 1] == s[i];
      LookupFindsEntry(s[1..], i - 1);
    }
  }

  /** Reference definition: the sum of every value paired with `key`, in sequence order. */
  function SumFor<K(==)>(s: seq<(K, real)>, key: K): real {
    if |s| == 0 then 0.0
    else SumFor(s[..|s| - 1], key) + (if s[|s| - 1].0 == key then s[|s| - 1].1 else 0.0)
  }

  /** Appending one entry adds its value to its own key's sum only. */
  lemma SumForSnoc<K>(s: seq<(K, real)>, x: (K, real), key: K)
    ensures SumFor(s + [x], key) == SumFor(s, key) + (if x.0 == key then x.1 else 0.0)
  {
    assert (s + [x])[..|s|] == s;
  }

  /** One step of "insert 0.0 if `key` is missing, then `d[key] += value`" on an
      insertion-ordered dictionary: an existing key is updated in place, a new key is appended. */
  function Accumulate<K(==,!new)>(acc: seq<(K, real)>, x: (K, real)): (r: seq<(K, real)>)
    ensures Keys(r) == Keys(acc) + {x.0}
    ensures KeysDistinct(acc) ==> KeysDistinct(r)
    ensures forall key :: Lookup(r, key) == Lookup(acc, key) + (if key == x.0 then x.1 else 0.0)
  {
    if |acc| == 0 then
      var r := [(x.0, 0.0 + x.1)];
      assert r[0].0 in Keys(r);
      r
    else if acc[0].0 == x.0 then
      var r := [(x.0, acc[0].1 + x.1)] + acc[1..];
      assert forall i :: 0 <= i < |acc| ==> r[i].0 == acc[i].0;
      assert Keys(r) == Keys(acc) by {
        assert forall i :: 0 <= i < |acc| ==> r[i].0 in Keys(acc) && acc[i].0 in Keys(r);
      }
      r
    else
      var tail := acc[1..];
      var rest := Accumulate(tail, x);
      assert acc == [acc[0]] + tail;
      KeysCons(acc[0], tail);
      KeysDistinctCons(acc[0], tail);
      KeysCons(acc[0], rest);
      KeysDistinctCons(acc[0], rest);
      [acc[0]] + rest
  }

  /** Sums the values of `s` per key, keys in order of first appearance: the
      `for ...: d[key] += value` loop. */
  function GroupSum<K(==,!new)>(s: seq<(K, real)>): (r: seq<(K, real)>)
    ensures KeysDistinct(r)
    ensures Keys(r) == Keys(s)
    ensures forall key :: Lookup(r, key) == SumFor(s, key)
  {
    if |s| == 0 then []
    else
      var init := s[..|s| - 1];
      assert Keys(s) == Keys(init) + {s[|s| - 1].0} by {
        assert forall i :: 0 <= i < |init| ==> init[i] == s[i];
      }
      Accumulate(GroupSum(init), s[|s| - 1])
  }

  /** Each entry of the grouped dictionary carries the full sum for its key. */
  lemma GroupSumEntries<K(!new)>(s: seq<(K, real)>)
    ensures forall p :: p in GroupSum(s) ==> p.1 == SumFor(s, p.0)
  {
    var g := GroupSum(s);
    forall p | p in g ensures p.1 == SumFor(s, p.0) {
      var j :| 0 <= j < |g| && g[j] == p;
      LookupFindsEntry(g, j);
    }
  }
}

=== FILE: recommend.dfy ===
/** The neighbour-based ranker: the `k_nearest`, `top_k_books` and
    `recommend_books` functions of the recommender, with the database queries
    replaced by in-memory sequences of rows and cosine similarity by an
    abstract function. */
module Recommend {
  import opened Seqs
  import opened Ranking
  import opened Domain

  /** Neighbours consulted by `RecommendBooks` when the caller gives none. */
  const DefaultNeighbours: int := 35
  /** Books returned by `RecommendBooks` when the caller gives no count. */
  const DefaultRecommendations: int := 5

  /** Cosine similarity between two users' taste vectors, left abstract. */
  type Similarity = (UserId, UserId) -> real

  /** `User.objects.exclude(id=target.id)` as a filter condition. */
  function OtherThan(target: UserId): UserId -> bool {
    u => u != target
  }

  /** `zip(users, similarities)`: each user paired with its similarity to `target`. */
  function Paired(target: UserId, others: seq<UserId>, sim: Similarity): seq<(UserId, real)> {
    seq(|others|, i requires 0 <= i < |others| => (others[i], sim(target, others[i])))
  }

  /** Excluding the target removes exactly one row when it is there and none otherwise. */
  lemma {:induction false} ExcludeOne(users: seq<UserId>, target: UserId)
    requires Distinct(users)
    ensures |Filter(users, OtherThan(target))| == |users| - (if target in users then 1 else 0)
    decreases |users|
  {
    if |users| > 0 {
      var init := users[..|users| - 1];
      var x := users[|users| - 1];
      assert users == init + [x];
      assert Distinct(init) by {
        assert forall i :: 0 <= i < |init| ==> init[i] == users[i];
      }
      assert x !in init by {
        assert forall i :: 0 <= i < |init| ==> init[i] == users[i] && users[i] != x;
      }
      ExcludeOne(init, target);
      FilterSnoc(init, x, OtherThan(target));
    }
  }

  /** The `k` users most similar to `target`, highest similarity first (`k_nearest`).
      `users` is the user table, which holds each user once. */
  function KNearest(target: UserId, users: seq<UserId>, sim: Similarity, k: int): (r: seq<(UserId, real)>)
    requires Distinct(users)
    ensures forall i :: 0 <= i < |r| ==> r[i].0 in users && r[i].0 != target && r[i].1 == sim(target, r[i].0)
    ensures KeysDistinct(r)
    ensures Descending(r)
    ensures var others := |users| - (if target in users then 1 else 0);
            |r| == if k >= 0 then Min(k, others) else Max(0, others + k)
    ensures k >= |users| ==> forall u :: u in users && u != target ==> u in Keys(r)
    ensures forall u :: u in users && u != target && u !in Keys(r) ==>
              forall i :: 0 <= i < |r| ==> sim(target, u) <= r[i].1
  {
    var others := Filter(users, OtherThan(target));
    var pairs := Paired(target, others, sim);
    var r := TopK(pairs, k);
    KNearestFacts(target, users, sim, k, others, pairs, r);
    r
  }

  /** The proof obligations of `KNearest`, discharged over its intermediate values. */
  lemma KNearestFacts(target: UserId, users: seq<UserId>, sim: Similarity, k: int,
                      others: seq<UserId>, pairs: seq<(UserId, real)>, r: seq<(UserId, real)>)
    requires Distinct(users)
    requires others == Filter(users, OtherThan(target))
    requires pairs == Paired(target, others, sim)
    requires r == TopK(pairs, k)
    ensures forall i :: 0 <= i < |r| ==> r[i].0 in users && r[i].0 != target && r[i].1 == sim(target, r[i].0)
    ensures KeysDistinct(r)
    ensures var n := |users| - (if target in users then 1 else 0);
            |r| == if k >= 0 then Min(k, n) else Max(0, n + k)
    ensures k >= |users| ==> forall u :: u in users && u != target ==> u in Keys(r)
    ensures forall u :: u in users && u != target && u !in Keys(r) ==>
              forall i :: 0 <= i < |r| ==> sim(target, u) <= r[i].1
  {
    PairsAreOtherUsers(target, users, sim, others, pairs);
    NearestAreOtherUsers(target, users, sim, pairs, r);
    NearestKeysDistinct(target, users, sim, k, others, pairs, r);
    NearestCount(target, users, sim, k, others, pairs, r);
    NearestCoverAll(target, users, sim, k, pairs, r);
    OmittedAreLessSimilar(target, users, sim, pairs, r);
  }

  /** With `k` at least the table size, the neighbour list names every other user. */
  lemma NearestCoverAll(target: UserId, users: seq<UserId>, sim: Similarity, k: int,
                        pairs: seq<(UserId, real)>, r: seq<(UserId, real)>)
    requires forall u :: u in users && u != target ==> exists j :: 0 <= j < |pairs| && pairs[j] == (u, sim(target, u))
    requires |pairs| <= |users|
    requires r == TopK(pairs, k)
    ensures k >= |users| ==> forall u :: u in users && u != target ==> u in Keys(r)
  {
    if k >= |users| {
      PermutationKeepsKeys(pairs, r);
    }
  }

  /** No neighbour is listed twice, because the user table lists no user twice. */
  lemma NearestKeysDistinct(target: UserId, users: seq<UserId>, sim: Similarity, k: int,
                            others: seq<UserId>, pairs: seq<(UserId, real)>, r: seq<(UserId, real)>)
    requires Distinct(users)
    requires others == Filter(users, OtherThan(target))
    requires pairs == Paired(target, others, sim)
    requires r == TopK(pairs, k)
    ensures KeysDistinct(r)
  {
    FilterKeepsDistinct(users, OtherThan(target));
    assert KeysDistinct(pairs);
  }

  /** There are `k` neighbours, or every other user when there are fewer, with Python slicing for negative `k`. */
  lemma NearestCount(target: UserId, users: seq<UserId>, sim: Similarity, k: int,
                     others: seq<UserId>, pairs: seq<(UserId, real)>, r: seq<(UserId, real)>)
    requires Distinct(users)
    requires others == Filter(users, OtherThan(target))
    requires pairs == Paired(target, others, sim)
    requires r == TopK(pairs, k)
    ensures var n := |users| - (if target in users then 1 else 0);
            |r| == if k >= 0 then Min(k, n) else Max(0, n + k)
  {
    ExcludeOne(users, target);
    var n := |users| - (if target in users then 1 else 0);
    assert |pairs| == n;
  }

  /** Every listed neighbour is another user, paired with its similarity to the target. */
  lemma NearestAreOtherUsers(target: UserId, users: seq<UserId>, sim: Similarity,
                             pairs: seq<(UserId, real)>, r: seq<(UserId, real)>)
    requires forall p :: p in pairs ==> p.0 in users && p.0 != target && p.1 == sim(target, p.0)
    requires multiset(r) <= multiset(pairs)
    ensures forall i :: 0 <= i < |r| ==> r[i].0 in users && r[i].0 != target && r[i].1 == sim(target, r[i].0)
  {
    forall i | 0 <= i < |r|
      ensures r[i].0 in users && r[i].0 != target && r[i].1 == sim(target, r[i].0)
    {
      assert r[i] in multiset(pairs);
      assert r[i] in pairs;
    }
  }

  /** A user left off the neighbour list is no more similar than any user on it. */
  lemma OmittedAreLessSimilar(target: UserId, users: seq<UserId>, sim: Similarity,
                              pairs: seq<(UserId, real)>, r: seq<(UserId, real)>)
    requires forall u :: u in users && u != target ==> exists j :: 0 <= j < |pairs| && pairs[j] == (u, sim(target, u))
    requires forall i :: 0 <= i < |pairs| && pairs[i] !in r ==> forall j :: 0 <= j < |r| ==> pairs[i].1 <= r[j].1
    ensures forall u :: u in users && u != target && u !in Keys(r) ==>
              forall i :: 0 <= i < |r| ==> sim(target, u) <= r[i].1
  {
    assert forall i :: 0 <= i < |r| ==> r[i].0 in Keys(r);
    forall u | u in users && u != target && u !in Keys(r)
      ensures forall i :: 0 <= i < |r| ==> sim(target, u) <= r[i].1
    {
      var j :| 0 <= j < |pairs| && pairs[j] == (u, sim(target, u));
    }
  }

  /** The paired list holds exactly the other users, each with its similarity to the target. */
  lemma PairsAreOtherUsers(target: UserId, users: seq<UserId>, sim: Similarity,
                           others: seq<UserId>, pairs: seq<(UserId, real)>)
    requires others == Filter(users, OtherThan(target))
    requires pairs == Paired(target, others, sim)
    ensures forall p :: p in pairs ==> p.0 in users && p.0 != target && p.1 == sim(target, p.0)
    ensures forall u :: u in users && u != target ==> exists j :: 0 <= j < |pairs| && pairs[j] == (u, sim(target, u))
  {
    forall p | p in pairs ensures p.0 in users && p.0 != target && p.1 == sim(target, p.0) {
      var j :| 0 <= j < |pairs| && pairs[j] == p;
      assert others[j] in users && OtherThan(target)(others[j]);
    }
    forall u | u in users && u != target
      ensures exists j :: 0 <= j < |pairs| && pairs[j] == (u, sim(target, u))
    {
      var m :| 0 <= m < |users| && users[m] == u;
      assert OtherThan(target)(users[m]);
      var j :| 0 <= j < |others| && others[j] == u;
      assert pairs[j] == (u, sim(target, u));
    }
  }

  /** `nearest_sims[nearest_users.index(u)]`: the similarity of the first pair listing `u`. */
  function FirstSim(neighbours: seq<(UserId, real)>, u: UserId): (s: real)
    requires u in Keys(neighbours)
    ensures exists i :: 0 <= i < |neighbours| && neighbours[i] == (u, s) &&
              forall j :: 0 <= j < i ==> neighbours[j].0 != u
  {
    if neighbours[0].0 == u then neighbours[0].1
    else
      KeysCons(neighbours[0], neighbours[1..]);
      assert neighbours == [neighbours[0]] + neighbours[1..];
      var s := FirstSim(neighbours[1..], u);
      assert forall i :: 0 <= i < |neighbours| - 1 ==> neighbours[1..][i] == neighbours[i + 1];
      s
  }

  /** With each neighbour listed once, the first-occurrence lookup yields that neighbour's own similarity. */
  lemma NeighbourSimilarity(neighbours: seq<(UserId, real)>, i: nat)
    requires KeysDistinct(neighbours)
    requires i < |neighbours|
    ensures neighbours[i].0 in Keys(neighbours)
    ensures FirstSim(neighbours, neighbours[i].0) == neighbours[i].1
  {
    assert neighbours[i].0 in Keys(neighbours);
  }

  /** What one neighbour rating adds to its book's score: `rating.rating * nearest_sims[...]`. */
  function Weighted(x: Rating, neighbours: seq<(UserId, real)>): real
    requires x.user in Keys(neighbours)
  {
    x.value * FirstSim(neighbours, x.user)
  }

  /** Each rating's book paired with `rating × similarity of its author`. */
  function Contributions(rs: seq<Rating>, neighbours: seq<(UserId, real)>): (c: seq<(BookId, real)>)
    requires forall i :: 0 <= i < |rs| ==> rs[i].user in Keys(neighbours)
    ensures |c| == |rs|
    ensures forall i :: 0 <= i < |rs| ==> c[i].0 == rs[i].book && c[i].1 == Weighted(rs[i], neighbours)
  {
    if |rs| == 0 then []
    else
      var x := rs[|rs| - 1];
      assert forall i :: 0 <= i < |rs| - 1 ==> rs[..|rs| - 1][i] == rs[i];
      Contributions(rs[..|rs| - 1], neighbours) + [(x.book, Weighted(x, neighbours))]
  }

  /** Reference score of `b`: over all neighbour ratings of `b` at or above `likes`,
      the sum of the rating times that neighbour's similarity. */
  function Score(ratings: seq<Rating>, neighbours: seq<(UserId, real)>, likes: real, b: BookId): real {
    if |ratings| == 0 then 0.0
    else
      var x := ratings[|ratings| - 1];
      Score(ratings[..|ratings| - 1], neighbours, likes, b) +
        (if x.book == b && x.user in Keys(neighbours) && x.value >= likes
         then Weighted(x, neighbours) else 0.0)
  }

  /** The books some neighbour rated at or above `likes` and the target has not rated. */
  function CandidateBooks(target: UserId, neighbours: seq<(UserId, real)>, ratings: seq<Rating>, likes: real): (c: set<BookId>)
    ensures forall b :: b in c <==>
              (b !in RatedBy(ratings, target) &&
               exists x :: x in ratings && x.book == b && x.user in Keys(neighbours) && x.value >= likes)
  {
    set x | x in ratings && x.user in Keys(neighbours) && x.value >= likes && x.book !in RatedBy(ratings, target) :: x.book
  }

  /** The ratings the ranker scores, in table order: neighbours' ratings at or above
      `likes` (`filter(user__in=nearest_users).filter(rating__gte=LIKES)`), less those of
      books in `read` (`.exclude(book__in=...)`). */
  function Scored(ratings: seq<Rating>, neighbours: seq<(UserId, real)>, likes: real, read: set<BookId>): (rs: seq<Rating>)
    ensures forall i :: 0 <= i < |rs| ==>
              rs[i] in ratings && rs[i].user in Keys(neighbours) && rs[i].value >= likes && rs[i].book !in read
    ensures forall i :: 0 <= i < |ratings| ==>
              ratings[i].user in Keys(neighbours) && ratings[i].value >= likes && ratings[i].book !in read ==> ratings[i] in rs
  {
    Filter(ratings, ScoredBy(neighbours, likes, read))
  }

  /** The ranker's three row filters as one condition. */
  function ScoredBy(neighbours: seq<(UserId, real)>, likes: real, read: set<BookId>): Rating -> bool {
    (x: Rating) => x.user in Keys(neighbours) && x.value >= likes && x.book !in read
  }

  /** Summing the scored contributions of an unread book gives its reference score. */
  lemma {:induction false} ScoreOfUnreadBook(rs: seq<Rating>, neighbours: seq<(UserId, real)>, likes: real,
                                             read: set<BookId>, b: BookId)
    requires b !in read
    ensures SumFor(Contributions(Scored(rs, neighbours, likes, read), neighbours), b) == Score(rs, neighbours, likes, b)
    decreases |rs|
  {
    if |rs| == 0 {
      assert Scored(rs, neighbours, likes, read) == [];
      assert Contributions([], neighbours) == [];
    } else {
      var init := rs[..|rs| - 1];
      var x := rs[|rs| - 1];
      assert rs == init + [x];
      ScoreOfUnreadBook(init, neighbours, likes, read, b);
      ScoreOfUnreadBookStep(init, x, neighbours, likes, read, b);
    }
  }

  /** One more rating changes the summed contributions of an unread book as it changes its reference score. */
  lemma ScoreOfUnreadBookStep(rs: seq<Rating>, x: Rating, neighbours: seq<(UserId, real)>, likes: real,
                              read: set<BookId>, b: BookId)
    requires b !in read
    requires SumFor(Contributions(Scored(rs, neighbours, likes, read), neighbours), b) == Score(rs, neighbours, likes, b)
    ensures SumFor(Contributions(Scored(rs + [x], neighbours, likes, read), neighbours), b) ==
            Score(rs + [x], neighbours, likes, b)
  {
    var add := if x.book == b && x.user in Keys(neighbours) && x.value >= likes then Weighted(x, neighbours) else 0.0;
    ScoreSnoc(rs, x, neighbours, likes, b);
    SumStep(rs, x, neighbours, likes, read, b);
    assert Score(rs + [x], neighbours, likes, b) == Score(rs, neighbours, likes, b) + add;
  }

  /** One more rating adds to the summed contributions of an unread book what it adds to its reference score. */
  lemma SumStep(rs: seq<Rating>, x: Rating, neighbours: seq<(UserId, real)>, likes: real, read: set<BookId>, b: BookId)
    requires b !in read
    ensures SumFor(Contributions(Scored(rs + [x], neighbours, likes, read), neighbours), b) ==
            SumFor(Contributions(Scored(rs, neighbours, likes, read), neighbours), b) +
              (if x.book == b && x.user in Keys(neighbours) && x.value >= likes then Weighted(x, neighbours) else 0.0)
  {
    var s := Scored(rs, neighbours, likes, read);
    ScoredSnoc(rs, x, neighbours, likes, read);
    if x.user in Keys(neighbours) && x.value >= likes && x.book !in read {
      var c := Contributions(s, neighbours);
      var e := (x.book, Weighted(x, neighbours));
      ContributionsSnoc(s, x, neighbours);
      SumForSnoc(c, e, b);
    } else {
      assert s + [] == s;
    }
  }

  /** Scoring one more rating appends it exactly when it passes the ranker's filters. */
  lemma ScoredSnoc(rs: seq<Rating>, x: Rating, neighbours: seq<(UserId, real)>, likes: real, read: set<BookId>)
    ensures Scored(rs + [x], neighbours, likes, read) ==
            Scored(rs, neighbours, likes, read) +
              (if x.user in Keys(neighbours) && x.value >= likes && x.book !in read then [x] else [])
  {
    FilterSnoc(rs, x, ScoredBy(neighbours, likes, read));
  }

  /** One more scored rating appends its weighted contribution. */
  lemma ContributionsSnoc(rs: seq<Rating>, x: Rating, neighbours: seq<(UserId, real)>)
    requires forall i :: 0 <= i < |rs| ==> rs[i].user in Keys(neighbours)
    requires x.user in Keys(neighbours)
    ensures Contributions(rs + [x], neighbours) == Contributions(rs, neighbours) + [(x.book, Weighted(x, neighbours))]
  {
    assert (rs + [x])[..|rs|] == rs;
  }

  lemma ScoreSnoc(rs: seq<Rating>, x: Rating, neighbours: seq<(UserId, real)>, likes: real, b: BookId)
    ensures Score(rs + [x], neighbours, likes, b) == Score(rs, neighbours, likes, b) +
              (if x.book == b && x.user in Keys(neighbours) && x.value >= likes
               then Weighted(x, neighbours) else 0.0)
  {
    assert (rs + [x])[..|rs|] == rs;
  }

  /** The `k` unread books with the highest aggregate score, best first (`top_k_books`). */
  function TopKBooks(target: UserId, neighbours: seq<(UserId, real)>, ratings: seq<Rating>, likes: real, k: int)
    : (r: seq<(BookId, real)>)
    ensures forall i :: 0 <= i < |r| ==> r[i].0 !in RatedBy(ratings, target)
    ensures forall i :: 0 <= i < |r| ==> r[i].0 in CandidateBooks(target, neighbours, ratings, likes)
    ensures forall i :: 0 <= i < |r| ==> r[i].1 == Score(ratings, neighbours, likes, r[i].0)
    ensures KeysDistinct(r)
    ensures Descending(r)
    ensures k >= 0 ==> |r| <= k
    ensures var c := |CandidateBooks(target, neighbours, ratings, likes)|;
            |r| == if k >= 0 then Min(k, c) else Max(0, c + k)
    ensures k >= 0 && |r| < k ==> CandidateBooks(target, neighbours, ratings, likes) <= Keys(r)
    ensures forall b :: b in CandidateBooks(target, neighbours, ratings, likes) && b !in Keys(r) ==>
              forall i :: 0 <= i < |r| ==> Score(ratings, neighbours, likes, b) <= r[i].1
    ensures CandidateBooks(target, neighbours, ratings, likes) == {} ==> r == []
  {
    var read := RatedBy(ratings, target);
    var scores := GroupSum(Contributions(Scored(ratings, neighbours, likes, read), neighbours));
    var r := TopK(scores, k);
    ScoresMatchReference(target, neighbours, ratings, likes, scores);
    TopKBooksFacts(target, neighbours, ratings, likes, k, scores, r);
    RankingCount(target, neighbours, ratings, likes, k, scores, r);
    r
  }

  /** The ranking keeps Python's `[:k]` of the candidates: `k` of them, or all when there are fewer,
      and for a negative `k` all but the last `-k`. */
  lemma RankingCount(target: UserId, neighbours: seq<(UserId, real)>, ratings: seq<Rating>, likes: real, k: int,
                     scores: seq<(BookId, real)>, r: seq<(BookId, real)>)
    requires KeysDistinct(scores)
    requires Keys(scores) == CandidateBooks(target, neighbours, ratings, likes)
    requires |r| == if k >= 0 then Min(k, |scores|) else Max(0, |scores| + k)
    ensures var c := |CandidateBooks(target, neighbours, ratings, likes)|;
            |r| == if k >= 0 then Min(k, c) else Max(0, c + k)
  {
    KeysDistinctCount(scores);
  }

  /** The proof obligations of `TopKBooks`, discharged over its intermediate values. */
  lemma TopKBooksFacts(target: UserId, neighbours: seq<(UserId, real)>, ratings: seq<Rating>, likes: real, k: int,
                       scores: seq<(BookId, real)>, r: seq<(BookId, real)>)
    requires Keys(scores) == CandidateBooks(target, neighbours, ratings, likes)
    requires forall j :: 0 <= j < |scores| ==> scores[j].1 == Score(ratings, neighbours, likes, scores[j].0)
    requires |r| == if k >= 0 then Min(k, |scores|) else Max(0, |scores| + k)
    requires multiset(r) <= multiset(scores)
    requires |r| == |scores| ==> multiset(r) == multiset(scores)
    requires forall i :: 0 <= i < |scores| && scores[i] !in r ==> AllAtLeast(r, scores[i].1)
    ensures forall i :: 0 <= i < |r| ==> r[i].0 in CandidateBooks(target, neighbours, ratings, likes)
    ensures forall i :: 0 <= i < |r| ==> r[i].1 == Score(ratings, neighbours, likes, r[i].0)
    ensures k >= 0 && |r| < k ==> CandidateBooks(target, neighbours, ratings, likes) <= Keys(r)
    ensures forall b :: b in CandidateBooks(target, neighbours, ratings, likes) && b !in Keys(r) ==>
              forall i :: 0 <= i < |r| ==> Score(ratings, neighbours, likes, b) <= r[i].1
  {
    var cands := CandidateBooks(target, neighbours, ratings, likes);
    forall i | 0 <= i < |r| ensures r[i].0 in cands && r[i].1 == Score(ratings, neighbours, likes, r[i].0) {
      assert r[i] in multiset(scores);
      var j :| 0 <= j < |scores| && scores[j] == r[i];
      assert scores[j].0 in Keys(scores);
    }
    if k >= 0 && |r| < k {
      assert multiset(r) == multiset(scores);
      PermutationKeepsKeys(scores, r);
    }
    assert forall i :: 0 <= i < |r| ==> r[i].0 in Keys(r);
    forall b | b in cands && b !in Keys(r)
      ensures forall i :: 0 <= i < |r| ==> Score(ratings, neighbours, likes, b) <= r[i].1
    {
      var j :| 0 <= j < |scores| && scores[j].0 == b;
    }
  }

  /** The aggregated dictionary holds one entry per candidate book, carrying its reference score. */
  lemma ScoresMatchReference(target: UserId, neighbours: seq<(UserId, real)>, ratings: seq<Rating>, likes: real,
                             scores: seq<(BookId, real)>)
    requires scores == GroupSum(Contributions(Scored(ratings, neighbours, likes, RatedBy(ratings, target)), neighbours))
    ensures Keys(scores) == CandidateBooks(target, neighbours, ratings, likes)
    ensures forall j :: 0 <= j < |scores| ==> scores[j].1 == Score(ratings, neighbours, likes, scores[j].0)
  {
    var c := Contributions(Scored(ratings, neighbours, likes, RatedBy(ratings, target)), neighbours);
    ContributedBooks(target, neighbours, ratings, likes);
    GroupSumEntries(c);
    forall j | 0 <= j < |scores| ensures scores[j].1 == Score(ratings, neighbours, likes, scores[j].0) {
      assert scores[j] in scores;
      assert scores[j].0 in Keys(scores);
      CandidateScore(target, neighbours, ratings, likes, scores[j].0);
    }
  }

  /** A candidate book's summed contributions equal its reference score. */
  lemma CandidateScore(target: UserId, neighbours: seq<(UserId, real)>, ratings: seq<Rating>, likes: real, b: BookId)
    requires b in CandidateBooks(target, neighbours, ratings, likes)
    ensures SumFor(Contributions(Scored(ratings, neighbours, likes, RatedBy(ratings, target)), neighbours), b)
            == Score(ratings, neighbours, likes, b)
  {
    ScoreOfUnreadBook(ratings, neighbours, likes, RatedBy(ratings, target), b);
  }

  /** The books that receive a contribution are exactly the candidate books. */
  lemma ContributedBooks(target: UserId, neighbours: seq<(UserId, real)>, ratings: seq<Rating>, likes: real)
    ensures Keys(Contributions(Scored(ratings, neighbours, likes, RatedBy(ratings, target)), neighbours))
            == CandidateBooks(target, neighbours, ratings, likes)
  {
    var rs := Scored(ratings, neighbours, likes, RatedBy(ratings, target));
    var c := Contributions(rs, neighbours);
    var cands := CandidateBooks(target, neighbours, ratings, likes);
    forall b | b in Keys(c) ensures b in cands {
      var i :| 0 <= i < |c| && c[i].0 == b;
      assert rs[i] in ratings;
    }
    forall b | b in cands ensures b in Keys(c) {
      var x :| x in ratings && x.book == b && x.user in Keys(neighbours) && x.value >= likes;
      var m :| 0 <= m < |ratings| && ratings[m] == x;
      assert x in rs;
      var i :| 0 <= i < |rs| && rs[i] == x;
      assert c[i].0 == b;
    }
  }

  /** `recommend_books`: the best `k` unread books among those liked by the `n` users most
      similar to `target`. Every recommended book was liked by some other user. */
  function RecommendBooks(target: UserId, users: seq<UserId>, ratings: seq<Rating>, sim: Similarity, likes: real,
                          n: int := DefaultNeighbours, k: int := DefaultRecommendations): (r: seq<(BookId, real)>)
    requires Distinct(users)
    ensures forall i :: 0 <= i < |r| ==> r[i].0 !in RatedBy(ratings, target)
    ensures forall i :: 0 <= i < |r| ==> LikedByAnotherUser(ratings, users, target, likes, r[i].0)
    ensures forall i :: 0 <= i < |r| ==> r[i].1 == Score(ratings, KNearest(target, users, sim, n), likes, r[i].0)
    ensures KeysDistinct(r)
    ensures Descending(r)
    ensures k >= 0 ==> |r| <= k
    ensures var c := |CandidateBooks(target, KNearest(target, users, sim, n), ratings, likes)|;
            |r| == if k >= 0 then Min(k, c) else Max(0, c + k)
  {
    var neighbours := KNearest(target, users, sim, n);
    var r := TopKBooks(target, neighbours, ratings, likes, k);
    LikedByOtherUsers(target, users, neighbours, ratings, likes, r);
    r
  }

  /** Some user of `users` other than `target` rated `b` at or above `likes`. */
  predicate LikedByAnotherUser(ratings: seq<Rating>, users: seq<UserId>, target: UserId, likes: real, b: BookId) {
    exists x :: x in ratings && x.book == b && x.user in users && x.user != target && x.value >= likes
  }

  /** A book backed by a listed neighbour's like is backed by the like of some other user. */
  lemma LikedByOtherUsers(target: UserId, users: seq<UserId>, neighbours: seq<(UserId, real)>, ratings: seq<Rating>,
                          likes: real, r: seq<(BookId, real)>)
    requires forall i :: 0 <= i < |neighbours| ==> neighbours[i].0 in users && neighbours[i].0 != target
    requires forall i :: 0 <= i < |r| ==> r[i].0 in CandidateBooks(target, neighbours, ratings, likes)
    ensures forall i :: 0 <= i < |r| ==> LikedByAnotherUser(ratings, users, target, likes, r[i].0)
  {
    forall i | 0 <= i < |r| ensures LikedByAnotherUser(ratings, users, target, likes, r[i].0) {
      var x :| x in ratings && x.book == r[i].0 && x.user in Keys(neighbours) && x.value >= likes;
      var j :| 0 <= j < |neighbours| && neighbours[j].0 == x.user;
      assert x.user in users && x.user != target;
    }
  }

  /** Called without counts, `RecommendBooks` consults 35 neighbours and returns at most 5 books. */
  lemma RecommendDefaults(target: UserId, users: seq<UserId>, ratings: seq<Rating>, sim: Similarity, likes: real)
    requires Distinct(users)
    ensures RecommendBooks(target, users, ratings, sim, likes)
            == TopKBooks(target, KNearest(target, users, sim, 35), ratings, likes, 5)
    ensures |RecommendBooks(target, users, ratings, sim, likes)| <= 5
  {
  }

  /** A user who has rated nothing still gets a recommendation whenever some other user likes
      a book and every other user is consulted: whatever the similarities (zero for an empty
      taste profile), the liked book enters the ranking with its score. */
  lemma ColdStartStillRecommends(target: UserId, users: seq<UserId>, ratings: seq<Rating>,
                                 sim: Similarity, likes: real, n: int, k: int, x: Rating)
    requires Distinct(users)
    requires forall y :: y in ratings ==> y.user != target
    requires x in ratings && x.user in users && x.value >= likes
    requires n >= |users| && k >= 1
    ensures |RecommendBooks(target, users, ratings, sim, likes, n, k)| >= 1
  {
    var neighbours := KNearest(target, users, sim, n);
    assert x.user in Keys(neighbours);
    assert x.book !in RatedBy(ratings, target);
    assert x.book in CandidateBooks(target, neighbours, ratings, likes);
  }

  /** A rating by someone other than the target that is below the threshold, or whose author is
      not a listed neighbour, leaves the ranking unchanged. */
  lemma IrrelevantRatingIgnored(target: UserId, neighbours: seq<(UserId, real)>, ratings: seq<Rating>,
                                likes: real, k: int, x: Rating)
    requires x.user != target
    requires x.value < likes || x.user !in Keys(neighbours)
    ensures TopKBooks(target, neighbours, ratings + [x], likes, k) == TopKBooks(target, neighbours, ratings, likes, k)
  {
    var ratings' := ratings + [x];
    assert RatedBy(ratings', target) == RatedBy(ratings, target);
    assert ratings'[..|ratings|] == ratings;
    assert Scored(ratings', neighbours, likes, RatedBy(ratings', target))
           == Scored(ratings, neighbours, likes, RatedBy(ratings, target));
    assert CandidateBooks(target, neighbours, ratings', likes) == CandidateBooks(target, neighbours, ratings, likes);
  }

  /** Two other users, each fully similar to the target, both like a book the target has not
      read: it is the single recommendation, scored 1.0 × 1.0 + 1.0 × 1.0 = 2.0. */
  lemma SharedFavourite(a: UserId, b: UserId, c: UserId, book: BookId, sim: Similarity, likes: real)
    requires a != b && a != c && b != c
    requires sim(a, b) == 1.0 && sim(a, c) == 1.0
    requires likes <= 1.0
    ensures RecommendBooks(a, [a, b, c], [Rating(b, book, 1.0), Rating(c, book, 1.0)], sim, likes) == [(book, 2.0)]
  {
    var ratings := [Rating(b, book, 1.0), Rating(c, book, 1.0)];
    assert Distinct([a, b, c]);
    var neighbours := KNearest(a, [a, b, c], sim, DefaultNeighbours);
    assert RecommendBooks(a, [a, b, c], ratings, sim, likes) == TopKBooks(a, neighbours, ratings, likes, DefaultRecommendations);
    FullySimilarNeighbours(a, b, c, sim, neighbours);
    SharedFavouriteScore(a, b, c, book, neighbours, likes);
    SingleCandidate(a, neighbours, ratings, likes, DefaultRecommendations, book);
  }

  /** When exactly one book is a candidate, the ranking is that book with its score. */
  lemma SingleCandidate(target: UserId, neighbours: seq<(UserId, real)>, ratings: seq<Rating>, likes: real,
                        k: int, book: BookId)
    requires CandidateBooks(target, neighbours, ratings, likes) == {book}
    requires k >= 1
    ensures TopKBooks(target, neighbours, ratings, likes, k) == [(book, Score(ratings, neighbours, likes, book))]
  {
    OnlyCandidate(target, neighbours, ratings, likes, k, book, TopKBooks(target, neighbours, ratings, likes, k));
  }

  /** Every other user of a three-user table is a listed neighbour with its own similarity. */
  lemma FullySimilarNeighbours(a: UserId, b: UserId, c: UserId, sim: Similarity, neighbours: seq<(UserId, real)>)
    requires a != b && a != c && b != c
    requires sim(a, b) == 1.0 && sim(a, c) == 1.0
    requires neighbours == KNearest(a, [a, b, c], sim, DefaultNeighbours)
    ensures b in Keys(neighbours) && c in Keys(neighbours)
    ensures FirstSim(neighbours, b) == 1.0 && FirstSim(neighbours, c) == 1.0
  {
    assert b in [a, b, c] && c in [a, b, c];
    var i :| 0 <= i < |neighbours| && neighbours[i].0 == b;
    var j :| 0 <= j < |neighbours| && neighbours[j].0 == c;
    NeighbourSimilarity(neighbours, i);
    NeighbourSimilarity(neighbours, j);
  }

  /** The shared book is the only candidate and collects both likes at full similarity. */
  lemma SharedFavouriteScore(a: UserId, b: UserId, c: UserId, book: BookId, neighbours: seq<(UserId, real)>, likes: real)
    requires a != b && a != c
    requires b in Keys(neighbours) && c in Keys(neighbours)
    requires FirstSim(neighbours, b) == 1.0 && FirstSim(neighbours, c) == 1.0
    requires likes <= 1.0
    ensures Score([Rating(b, book, 1.0), Rating(c, book, 1.0)], neighbours, likes, book) == 2.0
    ensures CandidateBooks(a, neighbours, [Rating(b, book, 1.0), Rating(c, book, 1.0)], likes) == {book}
  {
    var ratings := [Rating(b, book, 1.0), Rating(c, book, 1.0)];
    assert ratings[..1] == [Rating(b, book, 1.0)];
    assert [Rating(b, book, 1.0)][..0] == [];
    assert Weighted(Rating(b, book, 1.0), neighbours) == 1.0;
    assert Weighted(Rating(c, book, 1.0), neighbours) == 1.0;
    assert Score([Rating(b, book, 1.0)], neighbours, likes, book) == 1.0;
    assert ratings[0] in ratings;
  }

  /** A ranking of distinct books drawn from a single candidate, which it must include while
      short of `k`, is that candidate alone. */
  lemma OnlyCandidate(target: UserId, neighbours: seq<(UserId, real)>, ratings: seq<Rating>, likes: real,
                      k: int, book: BookId, r: seq<(BookId, real)>)
    requires CandidateBooks(target, neighbours, ratings, likes) == {book}
    requires k >= 1
    requires forall i :: 0 <= i < |r| ==> r[i].0 in CandidateBooks(target, neighbours, ratings, likes)
    requires forall i :: 0 <= i < |r| ==> r[i].1 == Score(ratings, neighbours, likes, r[i].0)
    requires KeysDistinct(r)
    requires k >= 0 && |r| < k ==> CandidateBooks(target, neighbours, ratings, likes) <= Keys(r)
    ensures r == [(book, Score(ratings, neighbours, likes, book))]
  {
    if |r| == 0 {
      assert false;
    } else {
      assert |r| == 1 by {
        if |r| > 1 {
          FirstKeysDiffer(r);
          assert false;
        }
      }
      assert r[0].0 in CandidateBooks(target, neighbours, ratings, likes);
    }
  }

  /** The first two entries of a ranking with distinct keys rank different books. */
  lemma FirstKeysDiffer(r: seq<(BookId, real)>)
    requires KeysDistinct(r) && |r| > 1
    ensures r[0].0 != r[1].0
  {
  }
}

=== FILE: seqs.dfy ===
/** Sequence helpers shared by the ranker and the explanation builder. */
module Seqs {

  function Min(a: int, b: int): int { if a <= b then a else b }

  function Max(a: int, b: int): int { if a >= b then a else b }

  /** No element occurs twice. */
  predicate Distinct<T(==)>(s: seq<T>) {
    forall i, j :: 0 <= i < j < |s| ==> s[i] != s[j]
  }

  /** The elements of `s` that satisfy `p`, in their order in `s`
      (a list comprehension with a condition, or a query filter). */
  function Filter<T(==)>(s: seq<T>, p: T -> bool): (r: seq<T>)
    ensures |r| <= |s|
    ensures forall i :: 0 <= i < |r| ==> r[i] in s && p(r[i])
    ensures forall i :: 0 <= i < |s| && p(s[i]) ==> s[i] in r
  {
    if |s| == 0 then []
    else
      var init := Filter(s[..|s| - 1], p);
      assert forall i :: 0 <= i < |s| - 1 ==> s[i] == s[..|s| - 1][i];
      if p(s[|s| - 1]) then init + [s[|s| - 1]] else init
  }

  /** Filtering one more element extends the result by that element exactly when it passes. */
  lemma FilterSnoc<T>(s: seq<T>, x: T, p: T -> bool)
    ensures Filter(s + [x], p) == if p(x) then Filter(s, p) + [x] else Filter(s, p)
  {
    assert (s + [x])[..|s|] == s;
  }

  /** A filter keeps every copy of an element that passes and no copy of one that fails. */
  lemma {:induction false} FilterMultiplicity<T>(s: seq<T>, p: T -> bool, x: T)
    ensures multiset(Filter(s, p))[x] == if p(x) then multiset(s)[x] else 0
    decreases |s|
  {
    if |s| > 0 {
      var init := s[..|s| - 1];
      var y := s[|s| - 1];
      assert s == init + [y];
      FilterMultiplicity(init, p, x);
      FilterSnoc(init, y, p);
    }
  }

  /** Filtering a duplicate-free sequence leaves it duplicate-free. */
  lemma {:induction false} FilterKeepsDistinct<T>(s: seq<T>, p: T -> bool)
    requires Distinct(s)
    ensures Distinct(Filter(s, p))
    decreases |s|
  {
    if |s| > 0 {
      var init := s[..|s| - 1];
      var x := s[|s| - 1];
      assert s == init + [x];
      assert Distinct(init) by {
        assert forall i :: 0 <= i < |init| ==> init[i] == s[i];
      }
      assert x !in init by {
        assert forall i :: 0 <= i < |init| ==> init[i] == s[i] && s[i] != s[|s| - 1];
      }
      FilterKeepsDistinct(init, p);
      FilterSnoc(init, x, p);
      var f := Filter(init, p);
      assert forall i :: 0 <= i < |f| ==> f[i] in init;
    }
  }

  /** Python's `s[:k]`: the first `k` elements, or, for a negative `k`, all but the last `-k`. */
  function SliceTo<T>(s: seq<T>, k: int): (r: seq<T>)
    ensures |r| == if k >= 0 then Min(k, |s|) else Max(0, |s| + k)
    ensures r == s[..|r|]
  {
    if k >= 0 then s[..Min(k, |s|)] else s[..Max(0, |s| + k)]
  }

  /** `xs` is `ys` with some elements left out, the rest kept in order. */
  predicate IsSubsequence<T(==)>(xs: seq<T>, ys: seq<T>)
    decreases |ys|
  {
    if |ys| == 0 then |xs| == 0
    else
      (|xs| > 0 && xs[|xs| - 1] == ys[|ys| - 1] && IsSubsequence(xs[..|xs| - 1], ys[..|ys| - 1]))
      || IsSubsequence(xs, ys[..|ys| - 1])
  }

  /** Filtering keeps the surviving elements in their original order. */
  lemma {:induction false} FilterIsSubsequence<T>(s: seq<T>, p: T -> bool)
    ensures IsSubsequence(Filter(s, p), s)
    decreases |s|
  {
    if |s| > 0 {
      var init := s[..|s| - 1];
      var x := s[|s| - 1];
      assert s == init + [x];
      FilterIsSubsequence(init, p);
      FilterSnoc(init, x, p);
      var f := Filter(s, p);
      if p(x) {
        assert f[..|f| - 1] == Filter(init, p);
      }
    }
  }

  /** The distinct elements of `s` that satisfy `p`. */
  function Passing<T(==)>(s: seq<T>, p: T -> bool): set<T> {
    set x | x in s && p(x)
  }

  /** On a duplicate-free sequence, the number of kept elements is the number of distinct
      elements that pass (an SQL `COUNT` over a filtered table with a unique key). */
  lemma {:induction false} FilterCountsDistinct<T>(s: seq<T>, p: T -> bool)
    requires Distinct(s)
    ensures |Filter(s, p)| == |Passing(s, p)|
    decreases |s|
  {
    if |s| > 0 {
      var init := s[..|s| - 1];
      var x := s[|s| - 1];
      assert s == init + [x];
      assert Distinct(init) by {
        assert forall i :: 0 <= i < |init| ==> init[i] == s[i];
      }
      assert x !in init by {
        assert forall i :: 0 <= i < |init| ==> init[i] == s[i] && s[i] != s[|s| - 1];
      }
      FilterCountsDistinct(init, p);
      FilterSnoc(init, x, p);
      var before := Passing(init, p);
      var after := Passing(s, p);
      if p(x) {
        assert after == before + {x};
      } else {
        assert after == before;
      }
    }
  }
}

=== FILE: xai.dfy ===
/** The explanation builder: `_xai_explanation_dict`, which links recommended books
    to the books a user liked through the keywords they share, and the
    keyword-to-book edge list the explanation graph is drawn from. */
module Xai {
  import opened Seqs
  import opened Domain

  /** One row of the book–keyword join table behind `Book.keywords`. */
  datatype Tag = Tag(book: BookId, keyword: KeywordId)

  /** The explanation of one shared keyword: the recommended books that carry it, in
      recommendation order, and how many join rows tie it to the user's liked books. */
  datatype Support = Support(books: seq<BookId>, likedCount: nat)

  /** `Keyword.objects.filter(book__in=books)` as a condition on join rows. */
  function OnBooks(books: set<BookId>): Tag -> bool {
    (t: Tag) => t.book in books
  }

  /** `.filter(pk=kw.pk)` as a condition on join rows. */
  function WithKeyword(kw: KeywordId): Tag -> bool {
    (t: Tag) => t.keyword == kw
  }

  /** `kw in b.keywords.all()` as a condition on books. */
  function Carries(tags: seq<Tag>, kw: KeywordId): BookId -> bool {
    (b: BookId) => Tag(b, kw) in tags
  }

  /** The distinct keywords of some join rows. */
  function KeywordsIn(rows: seq<Tag>): set<KeywordId> {
    set t | t in rows :: t.keyword
  }

  /** Some recommended book carries `kw`. */
  predicate OnRecommendedBook(recBooks: seq<BookId>, tags: seq<Tag>, kw: KeywordId) {
    exists b :: b in recBooks && Tag(b, kw) in tags
  }

  /** Some book `user` rated at or above `likes` carries `kw`. */
  predicate OnLikedBook(ratings: seq<Rating>, user: UserId, likes: real, tags: seq<Tag>, kw: KeywordId) {
    exists x :: x in ratings && x.user == user && x.value >= likes && Tag(x.book, kw) in tags
  }

  /** `_xai_explanation_dict(user, rec_books)`: for every keyword shared by a recommended book
      and a liked book, the recommended books carrying it and its number of liked-book rows. */
  function ExplanationDict(user: UserId, recBooks: seq<BookId>, ratings: seq<Rating>, tags: seq<Tag>, likes: real)
    : (d: map<KeywordId, Support>)
    ensures forall kw :: kw in d <==>
              OnRecommendedBook(recBooks, tags, kw) && OnLikedBook(ratings, user, likes, tags, kw)
    ensures forall kw :: kw in d ==> forall b :: b in d[kw].books <==> b in recBooks && Tag(b, kw) in tags
    ensures forall kw :: kw in d ==> IsSubsequence(d[kw].books, recBooks)
    ensures forall kw, b :: kw in d ==>
              multiset(d[kw].books)[b] == if Tag(b, kw) in tags then multiset(recBooks)[b] else 0
    ensures forall kw :: kw in d ==> |d[kw].books| >= 1 && d[kw].likedCount >= 1
  {
    var recKeywords := KeywordsIn(Filter(tags, OnBooks(set b | b in recBooks)));
    var userRows := Filter(tags, OnBooks(LikedBooks(ratings, user, likes)));
    var common := recKeywords * KeywordsIn(userRows);
    var d := map kw | kw in common ::
      Support(Filter(recBooks, Carries(tags, kw)), |Filter(userRows, WithKeyword(kw))|);
    ExplanationFacts(user, recBooks, ratings, tags, likes, userRows, d);
    d
  }

  /** The proof obligations of `ExplanationDict`, discharged over its intermediate values. */
  lemma ExplanationFacts(user: UserId, recBooks: seq<BookId>, ratings: seq<Rating>, tags: seq<Tag>, likes: real,
                         userRows: seq<Tag>, d: map<KeywordId, Support>)
    requires userRows == Filter(tags, OnBooks(LikedBooks(ratings, user, likes)))
    requires d == map kw | kw in KeywordsIn(Filter(tags, OnBooks(set b | b in recBooks))) * KeywordsIn(userRows) ::
                   Support(Filter(recBooks, Carries(tags, kw)), |Filter(userRows, WithKeyword(kw))|)
    ensures forall kw :: kw in d <==>
              OnRecommendedBook(recBooks, tags, kw) && OnLikedBook(ratings, user, likes, tags, kw)
    ensures forall kw :: kw in d ==> forall b :: b in d[kw].books <==> b in recBooks && Tag(b, kw) in tags
    ensures forall kw :: kw in d ==> IsSubsequence(d[kw].books, recBooks)
    ensures forall kw, b :: kw in d ==>
              multiset(d[kw].books)[b] == if Tag(b, kw) in tags then multiset(recBooks)[b] else 0
    ensures forall kw :: kw in d ==> |d[kw].books| >= 1 && d[kw].likedCount >= 1
  {
    RecommendedKeywords(recBooks, tags);
    LikedKeywords(user, ratings, tags, likes);
    forall kw | kw in d
      ensures (forall b :: b in d[kw].books <==> b in recBooks && Tag(b, kw) in tags)
      ensures IsSubsequence(d[kw].books, recBooks)
      ensures forall b :: multiset(d[kw].books)[b] == if Tag(b, kw) in tags then multiset(recBooks)[b] else 0
      ensures |d[kw].books| >= 1 && d[kw].likedCount >= 1
    {
      KeywordSupport(recBooks, tags, userRows, kw);
    }
  }

  /** The keywords of the recommended books' join rows are those carried by some recommended book. */
  lemma RecommendedKeywords(recBooks: seq<BookId>, tags: seq<Tag>)
    ensures forall kw :: kw in KeywordsIn(Filter(tags, OnBooks(set b | b in recBooks))) <==>
              OnRecommendedBook(recBooks, tags, kw)
  {
    var recRows := Filter(tags, OnBooks(set b | b in recBooks));
    forall kw ensures kw in KeywordsIn(recRows) <==> OnRecommendedBook(recBooks, tags, kw) {
      if kw in KeywordsIn(recRows) {
        var t :| t in recRows && t.keyword == kw;
        assert t.book in recBooks && Tag(t.book, kw) == t;
      }
      if OnRecommendedBook(recBooks, tags, kw) {
        var b :| b in recBooks && Tag(b, kw) in tags;
        var i :| 0 <= i < |tags| && tags[i] == Tag(b, kw);
        assert OnBooks(set b | b in recBooks)(tags[i]);
        assert Tag(b, kw) in recRows;
      }
    }
  }

  /** The keywords of the liked books' join rows are those carried by some liked book. */
  lemma LikedKeywords(user: UserId, ratings: seq<Rating>, tags: seq<Tag>, likes: real)
    ensures forall kw :: kw in KeywordsIn(Filter(tags, OnBooks(LikedBooks(ratings, user, likes)))) <==>
              OnLikedBook(ratings, user, likes, tags, kw)
  {
    var liked := LikedBooks(ratings, user, likes);
    var userRows := Filter(tags, OnBooks(liked));
    forall kw ensures kw in KeywordsIn(userRows) <==> OnLikedBook(ratings, user, likes, tags, kw) {
      if kw in KeywordsIn(userRows) {
        var t :| t in userRows && t.keyword == kw;
        assert t.book in liked && Tag(t.book, kw) == t;
      }
      if OnLikedBook(ratings, user, likes, tags, kw) {
        var x :| x in ratings && x.user == user && x.value >= likes && Tag(x.book, kw) in tags;
        assert x.book in liked;
        var i :| 0 <= i < |tags| && tags[i] == Tag(x.book, kw);
        assert OnBooks(liked)(tags[i]);
        assert Tag(x.book, kw) in userRows;
      }
    }
  }

  /** The entry built for a keyword found on both sides lists exactly its recommended books, in order,
      and counts at least one liked-book row. */
  lemma KeywordSupport(recBooks: seq<BookId>, tags: seq<Tag>, userRows: seq<Tag>, kw: KeywordId)
    requires OnRecommendedBook(recBooks, tags, kw)
    requires kw in KeywordsIn(userRows)
    ensures forall b :: b in Filter(recBooks, Carries(tags, kw)) <==> b in recBooks && Tag(b, kw) in tags
    ensures IsSubsequence(Filter(recBooks, Carries(tags, kw)), recBooks)
    ensures forall b :: multiset(Filter(recBooks, Carries(tags, kw)))[b] ==
              if Tag(b, kw) in tags then multiset(recBooks)[b] else 0
    ensures |Filter(recBooks, Carries(tags, kw))| >= 1
    ensures |Filter(userRows, WithKeyword(kw))| >= 1
  {
    var books := Filter(recBooks, Carries(tags, kw));
    forall b ensures b in books <==> b in recBooks && Tag(b, kw) in tags {
      if b in recBooks && Tag(b, kw) in tags {
        var i :| 0 <= i < |recBooks| && recBooks[i] == b;
        assert Carries(tags, kw)(recBooks[i]);
      }
    }
    FilterIsSubsequence(recBooks, Carries(tags, kw));
    forall b ensures multiset(books)[b] == if Tag(b, kw) in tags then multiset(recBooks)[b] else 0 {
      FilterMultiplicity(recBooks, Carries(tags, kw), b);
    }
    var b :| b in recBooks && Tag(b, kw) in tags;
    assert b in books;
    var t :| t in userRows && t.keyword == kw;
    var i :| 0 <= i < |userRows| && userRows[i] == t;
    assert WithKeyword(kw)(userRows[i]);
    assert t in Filter(userRows, WithKeyword(kw));
  }

  /** Giving distinct books the same keyword gives distinct join rows. */
  lemma {:induction false} TagImageSize(books: set<BookId>, kw: KeywordId)
    ensures |set b | b in books :: Tag(b, kw)| == |books|
    decreases books
  {
    if books != {} {
      var b :| b in books;
      TagImageSize(books - {b}, kw);
      assert (set c | c in books :: Tag(c, kw)) == (set c | c in books - {b} :: Tag(c, kw)) + {Tag(b, kw)};
    }
  }

  /** With a duplicate-free join table (each book–keyword pair stored once), the liked-row count of
      an explained keyword is the number of distinct liked books that carry it. */
  lemma LikedCountCountsLikedBooks(user: UserId, recBooks: seq<BookId>, ratings: seq<Rating>, tags: seq<Tag>,
                                   likes: real, kw: KeywordId)
    requires Distinct(tags)
    requires OnRecommendedBook(recBooks, tags, kw) && OnLikedBook(ratings, user, likes, tags, kw)
    ensures kw in ExplanationDict(user, recBooks, ratings, tags, likes)
    ensures ExplanationDict(user, recBooks, ratings, tags, likes)[kw].likedCount ==
            |set b | b in LikedBooks(ratings, user, likes) && Tag(b, kw) in tags|
  {
    LikedRowCount(LikedBooks(ratings, user, likes), tags, kw);
  }

  /** Counting the join rows of `liked` books that carry `kw` counts those books. */
  lemma LikedRowCount(liked: set<BookId>, tags: seq<Tag>, kw: KeywordId)
    requires Distinct(tags)
    ensures |Filter(Filter(tags, OnBooks(liked)), WithKeyword(kw))| == |set b | b in liked && Tag(b, kw) in tags|
  {
    var userRows := Filter(tags, OnBooks(liked));
    FilterKeepsDistinct(tags, OnBooks(liked));
    FilterCountsDistinct(userRows, WithKeyword(kw));
    var books := set b | b in liked && Tag(b, kw) in tags;
    var rows := Passing(userRows, WithKeyword(kw));
    assert rows == set b | b in books :: Tag(b, kw) by {
      forall t | t in rows ensures t in set b | b in books :: Tag(b, kw) {
        assert t == Tag(t.book, kw);
      }
      forall b | b in books ensures Tag(b, kw) in rows {
        var i :| 0 <= i < |tags| && tags[i] == Tag(b, kw);
        assert OnBooks(liked)(tags[i]);
      }
    }
    TagImageSize(books, kw);
  }

  /** The explanation reads the ratings only through the user's set of liked books. */
  lemma ExplanationDependsOnLikedBooks(user: UserId, recBooks: seq<BookId>, ratings: seq<Rating>,
                                       ratings': seq<Rating>, tags: seq<Tag>, likes: real)
    requires LikedBooks(ratings, user, likes) == LikedBooks(ratings', user, likes)
    ensures ExplanationDict(user, recBooks, ratings, tags, likes) == ExplanationDict(user, recBooks, ratings', tags, likes)
  {
  }

  /** A new rating that is not a like by the explained user leaves the explanation unchanged. */
  lemma OtherRatingsDoNotMatter(user: UserId, recBooks: seq<BookId>, ratings: seq<Rating>, tags: seq<Tag>,
                                likes: real, x: Rating)
    requires x.user != user || x.value < likes
    ensures ExplanationDict(user, recBooks, ratings + [x], tags, likes) == ExplanationDict(user, recBooks, ratings, tags, likes)
  {
    assert LikedBooks(ratings + [x], user, likes) == LikedBooks(ratings, user, likes) by {
      forall b ensures b in LikedBooks(ratings + [x], user, likes) <==> b in LikedBooks(ratings, user, likes) {
        if b in LikedBooks(ratings + [x], user, likes) {
          var y :| y in ratings + [x] && y.user == user && y.book == b && y.value >= likes;
          assert y in ratings;
        }
      }
    }
    ExplanationDependsOnLikedBooks(user, recBooks, ratings + [x], ratings, tags, likes);
  }

  /** No recommendations or no liked books leave nothing to explain. */
  lemma NothingToExplain(user: UserId, recBooks: seq<BookId>, ratings: seq<Rating>, tags: seq<Tag>, likes: real)
    requires recBooks == [] || LikedBooks(ratings, user, likes) == {}
    ensures ExplanationDict(user, recBooks, ratings, tags, likes) == map[]
  {
  }

  /** The edges of one keyword node, one per recommended book it explains, in list order. */
  function KeywordEdges(kw: KeywordId, books: seq<BookId>): (edges: seq<(KeywordId, BookId)>)
    ensures |edges| == |books|
    ensures forall i :: 0 <= i < |edges| ==> edges[i] == (kw, books[i])
  {
    seq(|books|, i requires 0 <= i < |books| => (kw, books[i]))
  }

  /** The `(keyword, book)` edge list handed to the graph, walking the explanation's keywords in
      `order` (the dictionary's iteration order, which follows the database query). */
  function GraphEdges(d: map<KeywordId, Support>, order: seq<KeywordId>): (edges: seq<(KeywordId, BookId)>)
    requires forall i :: 0 <= i < |order| ==> order[i] in d
    ensures forall kw, b :: (kw, b) in edges <==> kw in order && b in d[kw].books
  {
    if |order| == 0 then []
    else
      var head := KeywordEdges(order[0], d[order[0]].books);
      var tail := GraphEdges(d, order[1..]);
      assert forall kw :: kw in order <==> kw == order[0] || kw in order[1..];
      assert forall kw, b :: (kw, b) in head <==> kw == order[0] && b in d[kw].books by {
        forall kw, b | (kw, b) in head ensures kw == order[0] && b in d[kw].books {
          var i :| 0 <= i < |head| && head[i] == (kw, b);
        }
        forall b | b in d[order[0]].books ensures (order[0], b) in head {
          var i :| 0 <= i < |d[order[0]].books| && d[order[0]].books[i] == b;
          assert head[i] == (order[0], b);
        }
      }
      head + tail
  }

  /** Each edge of the explanation graph joins a keyword to a recommended book that carries it, the
      keyword also being carried by a book the user liked; every such pair is drawn. */
  lemma EdgesAreSharedKeywordLinks(user: UserId, recBooks: seq<BookId>, ratings: seq<Rating>, tags: seq<Tag>,
                                   likes: real, order: seq<KeywordId>)
    requires forall kw :: kw in order <==> kw in ExplanationDict(user, recBooks, ratings, tags, likes)
    ensures forall kw, b ::
              (kw, b) in GraphEdges(ExplanationDict(user, recBooks, ratings, tags, likes), order) <==>
              (b in recBooks && Tag(b, kw) in tags && OnLikedBook(ratings, user, likes, tags, kw))
  {
    var d := ExplanationDict(user, recBooks, ratings, tags, likes);
    forall kw, b | b in recBooks && Tag(b, kw) in tags && OnLikedBook(ratings, user, likes, tags, kw)
      ensures kw in d
    {
      assert OnRecommendedBook(recBooks, tags, kw);
    }
  }
}
